=== FILE: README.md ===
# Zorbs market cap: a Dafny model of the history, backfill and rates endpoints

This project models the three server routes of the Zorbs market-cap dashboard that hold its logic:

- `GET /api/history` reads every stored floor-price observation and drops the records that do not
  decode. It sorts the rest by timestamp and removes price spikes with a median / 90th-percentile
  filter. It reports the filtered series, the latest point (`current`), percent changes over five
  lookback windows (hour, day, week, month, "quarter" of 77 days) and a diagnostics block.
- `GET /api/backfill` validates its parameters and runs a saved Dune query. It polls for the result
  at most 60 times and looks up the collection's total supply, falling back to 56741. For every day
  with a positive floor price it writes four observations, six hours apart.
- `GET /api/rates` serves ETH exchange rates behind a 60-second module-level cache. When a refresh
  fails it falls back to the stale entry.

The project has seven modules:

| module | file | contents |
|---|---|---|
| `Wrappers` | `wrappers.dfy` | `Option` and JavaScript truthiness of optional strings |
| `Observations` | `observations.dfy` | the stored record and the stable sort by timestamp |
| `Outliers` | `outliers.dfy` | `filterOutliers` |
| `Changes` | `changes.dfy` | `findClosest`, `calcChange` and the table of windows |
| `History` | `history.dfy` | the history handler |
| `Backfill` | `backfill.dfy` | the backfill handler |
| `RateCache` | `rates.dfy` | the rates handler and its cache |

Every outside interaction is an explicit input or output:

- the key-value store read;
- `Date.now()`;
- each HTTP response, including the sequence of poll responses indexed by request number;
- the cache carried from one request to the next.

Prices are mathematical reals, and timestamps and supplies are unbounded integers.

## Model

| member | source | states |
|---|---|---|
| Wrappers.OrElse | app/api/backfill/route.js:5 | `a \|\| b` on optional strings: the result is truthy exactly when one side is, and it is the first side when that is truthy |
| Observations.SortByTime | app/api/history/route.js:41 | the sort by timestamp returns a time-ordered list of the same length |
| Observations.SortByTimePermutes | app/api/history/route.js:41 | the sort is a permutation: the multiset of observations is unchanged |
| Observations.SortByTimeIsStable | app/api/history/route.js:41 | for every timestamp, the observations carrying it appear in the same relative order before and after sorting |
| Observations.SortByTimeOfOrdered | app/api/history/route.js:41 | a list already ordered by time is returned unchanged |
| Observations.SortedLastIsLatest | app/api/history/route.js:41 | the last element after sorting is an input element; no input element is later; among those with its timestamp it is the last in input order |
| Outliers.NoPositivePrices | app/api/history/route.js:56 | the list of positive prices is empty exactly when no floor price is above zero |
| Outliers.SortedPrices | app/api/history/route.js:56 | the price list is ascending, all positive, and a permutation of the positive floor prices |
| Outliers.Median | app/api/history/route.js:57-58 | the median of positive prices is positive |
| Outliers.PercentileIndex | app/api/history/route.js:61 | `floor(0.9 n)` is a valid index and lies within one of 0.9 n |
| Outliers.Percentile90 | app/api/history/route.js:61-62 | the 90th-percentile value is an element of the price list |
| Outliers.Threshold | app/api/history/route.js:65 | the threshold is the smaller of 3 x median and 1.5 x p90 (bounded by both, equal to one), and positive for positive prices |
| Outliers.MedianSplits | app/api/history/route.js:56-58 | at most half of the positive prices lie strictly below the median, and at most half strictly above |
| Outliers.PercentileRank | app/api/history/route.js:56-62 | at most `floor(0.9 n)` positive prices lie strictly below p90 and at most `n - 1 - floor(0.9 n)` strictly above |
| Outliers.FilterOutliers | app/api/history/route.js:52-69 | under five points the input is returned; with five or more points and no positive price the result is empty; the result is never longer than the input |
| Outliers.KeepAtMostSpec | app/api/history/route.js:68 | `filter(p <= t)` keeps input order, keeps exactly the points priced at or below `t`, and keeps every copy of each such point |
| Outliers.FilterOutliersSpec | app/api/history/route.js:52-69 | the filter only deletes points, never reorders or adds; with enough points and some positive price a point survives exactly when its price is at most the threshold |
| Outliers.FilterOutliersCounts | app/api/history/route.js:65-68 | with five or more points and some positive price, each point occurs in the series as often as in the input when priced at or below the threshold, and not at all otherwise |
| Outliers.NonPositiveKept | app/api/history/route.js:56-68 | a point priced zero or below is never removed when the threshold is defined |
| Outliers.NoSpikeKeepsAll | app/api/history/route.js:68 | when no price exceeds the threshold the filter returns its input unchanged |
| Outliers.SpikeIsDropped | app/api/history/route.js:52-69 | four points at price `a > 0` followed by one above `3 a`: the spike is removed and the four others are kept |
| Changes.ClosestIndex | app/api/history/route.js:77-89 | none exactly when no point is within tolerance; otherwise a point within tolerance, no farther than any point, and strictly nearer than every earlier point (first wins on ties) |
| Changes.FindClosest | app/api/history/route.js:77-89 | none exactly when every point is beyond the tolerance; otherwise a member within tolerance that is at least as near as every point |
| Changes.ClosestIsUnique | app/api/history/route.js:81-86 | the scan's answer is determined by the tie-breaking rule: two answers satisfying it are the same index |
| Changes.CalcChange | app/api/history/route.js:98-101 | no change exactly when either side is missing or the old price is 0; otherwise change x old = (current - old) x 100 |
| Changes.ChangeRoundTrip | app/api/history/route.js:98-101 | applying the percent change to the old price gives back the current price |
| Changes.FiftyPercentRise | app/api/history/route.js:98-101 | a move from 1 to 1.5 reports +50 |
| Changes.NoChanges | app/api/history/route.js:8 | an answer without a report lists every window, by name and in order, with a null change |
| Changes.WindowChanges | app/api/history/route.js:92-111 | one change per configured window, named as the window, in configuration order; a non-null change is the percent change from the filtered point nearest `now - duration` (within tolerance, price nonzero) to `current` |
| Changes.ChangeUnavailableIff | app/api/history/route.js:77-101 | a window's change is null exactly when no filtered point lies within its tolerance of `now - duration`, or the nearest one has price 0 |
| Changes.DeployedTolerancesGrow | app/api/history/route.js:92-96 | the five deployed windows grow in duration and tolerance, and every tolerance is at least two hours |
| History.DecodableMembers | app/api/history/route.js:32-41 | parsing keeps exactly the stored records that decode, each as many times as it is stored |
| History.DecodableAppend | app/api/history/route.js:32-41 | parsing works record by record and so keeps store order: parsing two stretches of the store one after the other gives the parse of the whole |
| History.TruthyTimestamp | app/api/history/route.js:115-116 | a diagnostics timestamp is reported exactly when it is nonzero, and then unchanged |
| History.GetHistory | app/api/history/route.js:3-129 | a report exactly when the store is configured, readable, holds a decodable record, and the diagnostics' first and newest timestamps are representable dates; status 500 exactly when the store read throws (with its message) or a diagnostics date is out of range (with `Invalid time value`); empty answers carry no series and all-null changes; in a report, `current` is the last sorted record and the series is the filtered list; the counts satisfy removed = total - filtered >= 0; `newest` is `current`'s timestamp and `oldest` the series' first, each null when 0 |
| History.AllDatesInRange | app/api/history/route.js:115-116 | when every decodable stored record has a timestamp within the range of a JavaScript date, formatting the diagnostics cannot throw |
| History.SeriesIsOrderedStoredData | app/api/history/route.js:41-71 | the returned series is ordered by time and every point is a decodable stored record |
| History.LastParsedIsLatest | app/api/history/route.js:41-73 | the last parsed record is stored; no decodable record is later; among records with its timestamp it is the last in store order |
| History.CurrentIsLatestStored | app/api/history/route.js:73 | `current` is the latest decodable stored record, the last in store order among those with its timestamp |
| History.CurrentMayBeFilteredOut | app/api/history/route.js:71-73 | with four points at `a` and a newest one above `3 a`, `current` is the newest point although the series omits it |
| Backfill.ValidRowsMembers | app/api/backfill/route.js:153-157 | a row yields observations exactly when its price parses to a number above zero, and it does so once for each time it occurs in the results |
| Backfill.ValidRowsAppend | app/api/backfill/route.js:153-157 | rows are judged one by one in result order: the valid rows of two stretches of results, one after the other, are the valid rows of the whole |
| Backfill.Expand | app/api/backfill/route.js:152-181 | the store loop writes four observations per valid row and none for the others |
| Backfill.ExpandLayout | app/api/backfill/route.js:153-181 | observations `4j` to `4j+3` come from the `j`-th valid row, at its price and the resolved supply, at 0, 6, 12 and 18 hours into its day |
| Backfill.ExpandPoints | app/api/backfill/route.js:167-173 | every written observation has a positive price, the resolved supply, and market cap = price x supply |
| Backfill.DayPointsSixHoursApart | app/api/backfill/route.js:160-165 | a day's four timestamps start at the day and are six hours apart |
| Backfill.Settle | app/api/backfill/route.js:107-114 | a completed response ends polling with its rows (none when absent); a failed one raises `Dune query failed: ` followed by its error, or `Unknown error` when that is missing or empty; a throwing request raises its own message |
| Backfill.PollFrom | app/api/backfill/route.js:86-122 | at most 60 requests; a timeout exactly when all 60 responses were not-ok or still running; otherwise the loop stops at the first completed, failed or throwing response and that response decides the outcome |
| Backfill.AlwaysPendingTimesOut | app/api/backfill/route.js:90-122 | a query that never settles times out after exactly 60 requests |
| Backfill.CompletedAtOnce | app/api/backfill/route.js:109-111 | a completed first response ends polling after one request with its rows, or none when the rows are absent |
| Backfill.ResolveSupply | app/api/backfill/route.js:134-149 | the supply is never 0; it differs from 56741 only when an Alchemy key is set and the metadata parsed to that value; a nonzero parsed value is always used |
| Backfill.RunQuery | app/api/backfill/route.js:58-198 | an error (500) exactly when the execute request fails, returns no execution id, or polling fails or times out, each with its own message (the thrown one, `Dune execute failed: ` and the body, `No execution ID returned from Dune`, the poll failure's message, or `Dune query timed out after 5 minutes`); otherwise no data exactly for zero rows; a backfill reports the day count, writes exactly the four-per-day expansion of the valid rows at the resolved supply, stores four points per valid row, and gives the first and last day and the first three rows |
| Backfill.DuneKey | app/api/backfill/route.js:5 | the key parameter wins when it is non-empty, otherwise the environment key is used; a key is available exactly when either is non-empty |
| Backfill.RunBackfill | app/api/backfill/route.js:5-56 | 400 exactly when the Dune key (parameter, then environment) or the query id is missing, a missing key taking precedence; 500 for a missing store exactly after both checks pass; with all three present the query runs |
| Backfill.ValidationPrecedesRequests | app/api/backfill/route.js:8-56 | a rejected request gives the same answer whatever every upstream service would return, so it makes no upstream call |
| Backfill.TimeoutIsAnError | app/api/backfill/route.js:120-122 | sixty unsettled poll responses give the timeout error |
| Backfill.BackfilledPoints | app/api/backfill/route.js:133-181 | a successful backfill writes, for the `j`-th valid row, points `4j` to `4j+3` at that row's price and the resolved supply, 0, 6, 12 and 18 hours into its day; each has a positive price, a nonzero supply and market cap = price x supply |
| RateCache.ToRates | app/api/rates/route.js:40-46 | each currency is the quoted value, and 0 when it or the whole quote is missing |
| RateCache.CacheValid | app/api/rates/route.js:16 | the cache is served without fetching exactly when it holds rates stored less than a minute before now |
| RateCache.FailureMessage | app/api/rates/route.js:34-35 | a non-ok status fails with `Failed to fetch rates`; a throwing request fails with its own message |
| RateCache.RoundToSeconds | app/api/rates/route.js:20 | the reported age in seconds is within half a second of the age in ms |
| RateCache.Get | app/api/rates/route.js:11-76 | a hit exactly when an entry exists and is younger than 60 s; a fresh answer exactly when the cache is stale and the fetch succeeds, carrying the fetched rates with 0 for each missing currency, and those rates replace the cache; a stale answer with the old rates exactly when the fetch fails and an entry exists; a 500 error exactly when it fails and none exists; both carry the failure's message; only a fresh answer changes the cache |
| RateCache.Run | app/api/rates/route.js:7-8 | one response per request, and once the cache holds rates it keeps holding rates |
| RateCache.RefreshThenHit | app/api/rates/route.js:16-50 | after a fresh fetch every request in the next 60 s is a hit on those rates, whatever the provider would say |
| RateCache.HitAgeBounded | app/api/rates/route.js:16-20 | a hit reports an age between 0 and 60 seconds |
| RateCache.OnceCachedNeverError | app/api/rates/route.js:60-69 | once some fetch has succeeded, no later request in a run answers with an error |
| RateCache.ColdCacheFailureIsError | app/api/rates/route.js:60-74 | before any success, a failed fetch answers 500 with its message and leaves the cache empty |

## Left out

- Input and output are not modelled: the key-value store client, `fetch`, the five-second `setTimeout` between polls, `console` logging, and response headers. Each outcome is a parameter instead.
- Floating point is not modelled: prices are reals and `NaN` is not a value. A price that fails to parse is `None`. Infinities and rounding of `price * supply` are not represented.
- `Math.floor(n * 0.90)` is modelled as `(9 n) / 10`. The two agree for every list length the store can hold, because the double nearest 0.9 is slightly above it.
- History.GetHistory: timestamps are integers. A `NaN` timestamp is falsy and would give a null date, which the model cannot represent. An infinite or non-numeric truthy timestamp would make `toISOString` throw, and that is not modelled. Only the finite out-of-range case is.
- JSON decoding is abstracted as a stored item that is either a decoded observation or undecodable. The model does not cover stored values that decode to something other than an observation, or decode to `null` or `false`.
- Dates are modelled only as far as whether `toISOString` throws, which it does outside 8.64e15 ms of the epoch. The ISO text of `oldest`, `newest` and `fetchedAt` is not modelled, and neither is parsing of the Dune `day` text. Each row carries its day both as text and as milliseconds, and `fetchedAt` is an input.
- The sorted set's deduplication of identical members on `zadd` is not modelled, nor are write failures part-way through the store loop. The written observations are reported as the list of every write.
- The five-minute wall-clock meaning of the timeout message is not modelled. Only the 60-request cap is.
- Concurrent requests sharing the rates cache are not modelled. Requests are served one after another.
- RateCache.ToRates: `x || 0` also maps a quoted 0 to 0. Modelling a currency as present or absent loses nothing, because the result is the same.

## Behaviour modelled as written

These are edges of the handlers that a reader might not expect. The model keeps them as the code has them.

- `Outliers.FilterOutliers`: with five or more points and no positive price, the threshold is `NaN` and every comparison fails, so the series is empty. Returning the input unchanged would be the defensive choice.
- `History.GetHistory`: `current` is the last point of the sorted unfiltered list, so it can be a spike that the series omits. `History.CurrentMayBeFilteredOut` shows such a case. A caller might expect the last filtered point instead.
- `Backfill.ResolveSupply`: a negative parsed supply is accepted, because `parseInt(...) || 56741` replaces the fallback with any nonzero value.

=== FILE: backfill.dfy ===
/**
 `GET /api/backfill`: validate the parameters, run a saved Dune query, poll for its result at most
 60 times, look up the collection's total supply, and store four observations per day with a
 positive floor price. Every network call is an input: the execute response, the sequence of poll
 responses (one per request, in order) and the metadata response.
 */
module Backfill {
  import opened Wrappers
  import opened Observations

  /** The poll loop's cap on requests. */
  const MaxAttempts: nat := 60

  /** The supply used when the metadata lookup gives nothing usable. */
  const FallbackSupply: int := 56741

  /** One query result row: the `day` text, its instant in ms, and `parseFloat(floor_price)` (None for NaN). */
  datatype Row = Row(day: string, dayMs: int, floorPrice: Option<real>)

  /** A row that yields observations: its price parsed to a number above zero. */
  predicate ValidRow(row: Row) {
    row.floorPrice.Some? && row.floorPrice.value > 0.0
  }

  /** The valid rows, in result order. */
  function ValidRows(rows: seq<Row>): (r: seq<Row>)
    ensures |r| <= |rows|
    ensures forall i :: 0 <= i < |r| ==> ValidRow(r[i])
  {
    if |rows| == 0 then []
    else (if ValidRow(rows[0]) then [rows[0]] else []) + ValidRows(rows[1..])
  }

  /** A row is kept exactly when it is in the result and valid, as many times as it occurs there. */
  lemma {:induction false} ValidRowsMembers(rows: seq<Row>)
    ensures forall row :: row in ValidRows(rows) <==> row in rows && ValidRow(row)
    ensures forall row :: multiset(ValidRows(rows))[row] == if ValidRow(row) then multiset(rows)[row] else 0
    decreases |rows|
  {
    if |rows| > 0 {
      ValidRowsMembers(rows[1..]);
      assert rows == [rows[0]] + rows[1..];
      assert multiset(rows) == multiset{rows[0]} + multiset(rows[1..]);
    }
  }

  /** Rows are judged one at a time, so result order is kept: filtering a concatenation concatenates. */
  lemma {:induction false} ValidRowsAppend(a: seq<Row>, b: seq<Row>)
    ensures ValidRows(a + b) == ValidRows(a) + ValidRows(b)
    decreases |a|
  {
    if |a| > 0 {
      ValidRowsAppend(a[1..], b);
      assert (a + b)[0] == a[0];
      assert (a + b)[1..] == a[1..] + b;
      var head := if ValidRow(a[0]) then [a[0]] else [];
      assert ValidRows(a) == head + ValidRows(a[1..]);
      assert ValidRows(a + b) == head + (ValidRows(a[1..]) + ValidRows(b));
    } else {
      assert a + b == b;
    }
  }

  /** The `k`-th of a day's four observations, `6 k` hours after the start of the day. */
  function DayPoint(dayMs: int, price: real, supply: int, k: int): Observation {
    Observation(price, price * supply as real, supply, dayMs + k * 6 * HourMs)
  }

  /** The four observations written for one valid row. */
  function DayPoints(row: Row, supply: int): seq<Observation>
    requires ValidRow(row)
  {
    seq(4, k => DayPoint(row.dayMs, row.floorPrice.value, supply, k))
  }

  /** Every observation the store loop writes, in the order it writes them. */
  function Expand(rows: seq<Row>, supply: int): (r: seq<Observation>)
    ensures |r| == 4 * |ValidRows(rows)|
  {
    if |rows| == 0 then []
    else (if ValidRow(rows[0]) then DayPoints(rows[0], supply) else []) + Expand(rows[1..], supply)
  }

  /** The observation at position `i` of the expansion of `valid`: day `i / 4`, slot `i % 4`. */
  function Slot(valid: seq<Row>, supply: int, i: int): Observation
    requires 0 <= i < 4 * |valid| && ValidRow(valid[i / 4])
  {
    DayPoint(valid[i / 4].dayMs, valid[i / 4].floorPrice.value, supply, i % 4)
  }

  /**
   Observations `4 j` to `4 j + 3` come from the `j`-th valid row: its price and the supply, at
   0, 6, 12 and 18 hours into its day. Invalid rows leave no trace.
   */
  lemma {:induction false} ExpandLayout(rows: seq<Row>, supply: int)
    ensures forall i :: 0 <= i < |Expand(rows, supply)| ==> Expand(rows, supply)[i] == Slot(ValidRows(rows), supply, i)
    decreases |rows|
  {
    if |rows| > 0 {
      ExpandLayout(rows[1..], supply);
      var valid := ValidRows(rows);
      var rest := ValidRows(rows[1..]);
      var e := Expand(rows, supply);
      var e' := Expand(rows[1..], supply);
      if ValidRow(rows[0]) {
        var day := DayPoints(rows[0], supply);
        assert valid == [rows[0]] + rest;
        assert e == day + e';
        forall i | 0 <= i < |e| ensures e[i] == Slot(valid, supply, i) {
          if i < 4 {
            assert e[i] == day[i];
          } else {
            assert e[i] == e'[i - 4];
            assert (i - 4) / 4 == i / 4 - 1 && (i - 4) % 4 == i % 4;
            assert valid[i / 4] == rest[(i - 4) / 4];
            assert e'[i - 4] == Slot(rest, supply, i - 4);
          }
        }
      } else {
        assert valid == rest;
        assert e == e';
      }
    }
  }

  /** Every stored observation carries a positive price and the supply, with `marketCap = price * supply`. */
  lemma ExpandPoints(rows: seq<Row>, supply: int)
    ensures forall o :: o in Expand(rows, supply) ==> PricedAt(o, supply)
  {
    var e := Expand(rows, supply);
    ExpandLayout(rows, supply);
    forall i | 0 <= i < |e| ensures PricedAt(e[i], supply) {
      SlotPricedAt(ValidRows(rows), supply, i);
    }
  }

  /** A stored observation: positive price, the given supply, and `marketCap = price * supply`. */
  predicate PricedAt(o: Observation, supply: int) {
    o.floorPrice > 0.0 && o.totalSupply == supply && o.marketCap == o.floorPrice * supply as real
  }

  lemma SlotPricedAt(valid: seq<Row>, supply: int, i: int)
    requires 0 <= i < 4 * |valid| && ValidRow(valid[i / 4])
    ensures PricedAt(Slot(valid, supply, i), supply)
  {
  }

  /** The four observations of a day are six hours apart, in time order. */
  lemma DayPointsSixHoursApart(row: Row, supply: int)
    requires ValidRow(row)
    ensures forall k :: 0 <= k < 3 ==> DayPoints(row, supply)[k + 1].timestamp == DayPoints(row, supply)[k].timestamp + 6 * HourMs
    ensures DayPoints(row, supply)[0].timestamp == row.dayMs && DayPoints(row, supply)[3].timestamp == row.dayMs + 18 * HourMs
  {
  }

  /** One poll response; `Pending` stands for every state other than completed or failed. */
  datatype PollResponse =
    | PollFault(message: string)                 // the request or its JSON decoding throws
    | NotOk                                      // a non-2xx status
    | Pending                                    // any other query state
    | Completed(rows: Option<seq<Row>>)          // `QUERY_STATE_COMPLETED`, with `result.rows` if present
    | Failed(error: Option<string>)              // `QUERY_STATE_FAILED`, with `error` if present

  /** How the poll loop ends. */
  datatype PollOutcome = Finished(rows: seq<Row>) | Raised(message: string) | TimedOut

  /** The outcome and how many requests were made. */
  datatype Poll = Poll(outcome: PollOutcome, requests: nat)

  /** Responses after which the loop makes another request. */
  predicate Retry(p: PollResponse) {
    p.NotOk? || p.Pending?
  }

  /** The outcome a response that stops the loop settles. */
  function Settle(p: PollResponse): (r: PollOutcome)
    requires !Retry(p)
    ensures r.Finished? <==> p.Completed?
    ensures p.Completed? ==> r.rows == p.rows.GetOr([])
    ensures p.PollFault? ==> r == Raised(p.message)
    ensures p.Failed? && Truthy(p.error) ==> r == Raised("Dune query failed: " + p.error.value)
    ensures p.Failed? && !Truthy(p.error) ==> r == Raised("Dune query failed: Unknown error")
  {
    match p
    case PollFault(msg) => Raised(msg)
    case Completed(rows) => Finished(rows.GetOr([]))
    case Failed(error) => Raised("Dune query failed: " + (if Truthy(error) then error.value else "Unknown error"))
  }

  /**
   The poll loop from attempt `attempts` on: request number `k` receives `responses(k)`. It stops at
   the first response that is not a retry, or times out once `MaxAttempts` requests were retried.
   */
  function PollFrom(responses: nat -> PollResponse, attempts: nat): (r: Poll)
    requires attempts <= MaxAttempts
    ensures attempts <= r.requests <= MaxAttempts
    ensures r.outcome.TimedOut? <==> forall k :: attempts <= k < MaxAttempts ==> Retry(responses(k))
    ensures r.outcome.TimedOut? ==> r.requests == MaxAttempts
    ensures !r.outcome.TimedOut? ==>
              && attempts < r.requests
              && !Retry(responses(r.requests - 1))
              && r.outcome == Settle(responses(r.requests - 1))
              && forall k :: attempts <= k < r.requests - 1 ==> Retry(responses(k))
    decreases MaxAttempts - attempts
  {
    if attempts == MaxAttempts then Poll(TimedOut, attempts)
    else
      var p := responses(attempts);
      if Retry(p) then PollFrom(responses, attempts + 1)
      else Poll(Settle(p), attempts + 1)
  }

  /** A poll loop whose every response is a retry times out after exactly `MaxAttempts` requests. */
  lemma AlwaysPendingTimesOut(responses: nat -> PollResponse)
    requires forall k :: Retry(responses(k))
    ensures PollFrom(responses, 0) == Poll(TimedOut, MaxAttempts)
  {
  }

  /** A completed response to the first request ends the loop with its rows, or none if absent. */
  lemma CompletedAtOnce(responses: nat -> PollResponse)
    requires responses(0).Completed?
    ensures PollFrom(responses, 0) == Poll(Finished(responses(0).rows.GetOr([])), 1)
  {
  }

  /** The response of the execute request. */
  datatype ExecuteResponse =
    | ExecuteFault(message: string)               // the request or its JSON decoding throws
    | ExecuteNotOk(text: string)                  // a non-2xx status, with the body text
    | ExecuteOk(executionId: Option<string>)      // `execution_id`, if present

  /** The response of the contract-metadata request. */
  datatype MetaResponse =
    | MetaFault                                   // the request or its JSON decoding throws
    | MetaNotOk                                   // a non-2xx status
    | MetaOk(parsedSupply: Option<int>)           // `parseInt(totalSupply, 10)`, None for NaN

  /** `parseInt(totalSupply, 10) || 56741`, looked up only when an Alchemy key is set. */
  function ResolveSupply(alchemyKey: Option<string>, meta: MetaResponse): (s: int)
    ensures s != 0
    ensures s != FallbackSupply ==> Truthy(alchemyKey) && meta == MetaOk(Some(s))
    ensures Truthy(alchemyKey) && meta.MetaOk? && meta.parsedSupply.Some? && meta.parsedSupply.value != 0 ==>
              s == meta.parsedSupply.value
  {
    if Truthy(alchemyKey) && meta.MetaOk? && meta.parsedSupply.Some? && meta.parsedSupply.value != 0 then
      meta.parsedSupply.value
    else
      FallbackSupply
  }

  /** The request's inputs: query parameters and deployment configuration. */
  datatype BackfillRequest = BackfillRequest(
    keyParam: Option<string>,        // `?dune_key`
    keyEnv: Option<string>,          // `DUNE_API_KEY`
    queryId: Option<string>,         // `?query_id`
    kvConfigured: bool,              // `KV_REST_API_URL` is set
    alchemyKey: Option<string>)      // `ALCHEMY_API_KEY`

  datatype BackfillResponse =
    | MissingKey                                  // 400, with setup instructions
    | MissingQueryId                              // 400, with setup instructions
    | KvNotConfigured                             // 500
    | Error(message: string)                      // 500, any error thrown after validation
    | NoData                                      // 200, `success: false`
    | Backfilled(days: nat, stored: nat, written: seq<Observation>, from: string, to: string, sample: seq<Row>)
  {
    function Status(): int {
      match this
      case MissingKey => 400
      case MissingQueryId => 400
      case KvNotConfigured => 500
      case Error(_) => 500
      case NoData => 200
      case Backfilled(_, _, _, _, _, _) => 200
    }
  }

  /** `key || env`: the Dune key actually used. */
  function DuneKey(req: BackfillRequest): (key: Option<string>)
    ensures Truthy(key) <==> Truthy(req.keyParam) || Truthy(req.keyEnv)
    ensures Truthy(req.keyParam) ==> key == req.keyParam
    ensures !Truthy(req.keyParam) ==> key == req.keyEnv
  {
    OrElse(req.keyParam, req.keyEnv)
  }

  /** The query ran and polling ended with rows (possibly none). */
  predicate QuerySettled(execute: ExecuteResponse, polls: nat -> PollResponse) {
    execute.ExecuteOk? && Truthy(execute.executionId) && PollFrom(polls, 0).outcome.Finished?
  }

  /** The handler after validation: execute, poll, look up the supply, store. */
  function RunQuery(req: BackfillRequest, execute: ExecuteResponse, polls: nat -> PollResponse, meta: MetaResponse): (r: BackfillResponse)
    ensures r.Error? || r.NoData? || r.Backfilled?
    ensures r.Error? <==> !QuerySettled(execute, polls)
    ensures execute.ExecuteFault? ==> r == Error(execute.message)
    ensures execute.ExecuteNotOk? ==> r == Error("Dune execute failed: " + execute.text)
    ensures execute.ExecuteOk? && !Truthy(execute.executionId) ==> r == Error("No execution ID returned from Dune")
    ensures execute.ExecuteOk? && Truthy(execute.executionId) && PollFrom(polls, 0).outcome.Raised? ==>
              r == Error(PollFrom(polls, 0).outcome.message)
    ensures execute.ExecuteOk? && Truthy(execute.executionId) && PollFrom(polls, 0).outcome.TimedOut? ==>
              r == Error("Dune query timed out after 5 minutes")
    ensures QuerySettled(execute, polls) ==>
              var rows := PollFrom(polls, 0).outcome.rows;
              && (r.NoData? <==> |rows| == 0)
              && (r.Backfilled? ==>
                    && r.days == |rows|
                    && r.stored == |r.written| == 4 * |ValidRows(rows)|
                    && r.written == Expand(rows, ResolveSupply(req.alchemyKey, meta))
                    && r.from == rows[0].day && r.to == rows[|rows| - 1].day
                    && |r.sample| == (if |rows| < 3 then |rows| else 3) && r.sample == rows[..|r.sample|])
  {
    match execute
    case ExecuteFault(msg) => Error(msg)
    case ExecuteNotOk(text) => Error("Dune execute failed: " + text)
    case ExecuteOk(id) =>
      if !Truthy(id) then Error("No execution ID returned from Dune")
      else
        var poll := PollFrom(polls, 0);
        match poll.outcome
        case Raised(msg) => Error(msg)
        case TimedOut => Error("Dune query timed out after 5 minutes")
        case Finished(rows) =>
          if |rows| == 0 then NoData
          else
            var written := Expand(rows, ResolveSupply(req.alchemyKey, meta));
            Backfilled(|rows|, |written|, written, rows[0].day, rows[|rows| - 1].day, rows[..if |rows| < 3 then |rows| else 3])
  }

  /** The full handler: the two 400 checks and the store check come before any network call. */
  function RunBackfill(req: BackfillRequest, execute: ExecuteResponse, polls: nat -> PollResponse, meta: MetaResponse): (r: BackfillResponse)
    ensures r.Status() == 400 <==> !Truthy(DuneKey(req)) || !Truthy(req.queryId)
    ensures r.MissingKey? <==> !Truthy(DuneKey(req))
    ensures r.KvNotConfigured? <==> Truthy(DuneKey(req)) && Truthy(req.queryId) && !req.kvConfigured
    ensures Truthy(DuneKey(req)) && Truthy(req.queryId) && req.kvConfigured ==> r == RunQuery(req, execute, polls, meta)
  {
    if !Truthy(DuneKey(req)) then MissingKey
    else if !Truthy(req.queryId) then MissingQueryId
    else if !req.kvConfigured then KvNotConfigured
    else RunQuery(req, execute, polls, meta)
  }

  /** Without a key or a query id the answer does not depend on anything upstream: no request is made. */
  lemma ValidationPrecedesRequests(req: BackfillRequest,
                                   e1: ExecuteResponse, p1: nat -> PollResponse, m1: MetaResponse,
                                   e2: ExecuteResponse, p2: nat -> PollResponse, m2: MetaResponse)
    requires !Truthy(DuneKey(req)) || !Truthy(req.queryId) || !req.kvConfigured
    ensures RunBackfill(req, e1, p1, m1) == RunBackfill(req, e2, p2, m2)
  {
  }

  /** Polling that never settles within the cap ends in the timeout error. */
  lemma TimeoutIsAnError(req: BackfillRequest, id: string, polls: nat -> PollResponse, meta: MetaResponse)
    requires Truthy(DuneKey(req)) && Truthy(req.queryId) && req.kvConfigured && id != ""
    requires forall k :: 0 <= k < MaxAttempts ==> Retry(polls(k))
    ensures RunBackfill(req, ExecuteOk(Some(id)), polls, meta) == Error("Dune query timed out after 5 minutes")
  {
  }

  /**
   A successful backfill writes, for the `j`-th valid row, observations `4 j` to `4 j + 3` at that
   row's price and the resolved supply, 0, 6, 12 and 18 hours into its day; each one positive,
   with a nonzero supply and `marketCap = price * supply`.
   */
  lemma BackfilledPoints(req: BackfillRequest, execute: ExecuteResponse, polls: nat -> PollResponse, meta: MetaResponse)
    requires RunBackfill(req, execute, polls, meta).Backfilled?
    ensures var r := RunBackfill(req, execute, polls, meta);
            var valid := ValidRows(PollFrom(polls, 0).outcome.rows);
            var supply := ResolveSupply(req.alchemyKey, meta);
            && |r.written| == 4 * |valid|
            && (forall i :: 0 <= i < |r.written| ==> r.written[i] == Slot(valid, supply, i))
            && (forall o :: o in r.written ==> PricedAt(o, supply) && o.totalSupply != 0)
  {
    var rows := PollFrom(polls, 0).outcome.rows;
    var supply := ResolveSupply(req.alchemyKey, meta);
    ExpandLayout(rows, supply);
    ExpandPoints(rows, supply);
  }
}

=== FILE: changes.dfy ===
/**
 Percent changes against lookback windows: the history endpoint's `findClosest` and
 `calcChange`, and its table of windows with their tolerances.
 */
module Changes {
  import opened Wrappers
  import opened Observations

  /** `Math.abs(timestamp - target)`. */
  function Distance(o: Observation, target: int): nat {
    if o.timestamp >= target then o.timestamp - target else target - o.timestamp
  }

  /**
   `best` is the answer of a left-to-right scan of `points[..i]`: none when no scanned point lies
   within `tol` of `target`; otherwise a point within `tol` at least as near as every scanned point
   and strictly nearer than every point scanned before it (the first of equally near points wins).
   */
  ghost predicate ClosestAmong(points: seq<Observation>, target: int, tol: int, i: nat, best: Option<nat>)
    requires i <= |points|
  {
    match best
    case None => forall j :: 0 <= j < i ==> Distance(points[j], target) > tol
    case Some(b) =>
      && b < i
      && Distance(points[b], target) <= tol
      && (forall j :: 0 <= j < i ==> Distance(points[b], target) <= Distance(points[j], target))
      && (forall j :: 0 <= j < b ==> Distance(points[b], target) < Distance(points[j], target))
  }

  /** The loop of `findClosest` from position `i`, with the best index found so far. */
  function ScanClosest(points: seq<Observation>, target: int, tol: int, i: nat, best: Option<nat>): (r: Option<nat>)
    requires i <= |points|
    requires ClosestAmong(points, target, tol, i, best)
    ensures ClosestAmong(points, target, tol, |points|, r)
    decreases |points| - i
  {
    if i == |points| then best
    else
      var diff := Distance(points[i], target);
      var better := diff <= tol && (best.None? || diff < Distance(points[best.value], target));
      ScanClosest(points, target, tol, i + 1, if better then Some(i) else best)
  }

  /** Index of the point of `points` nearest to `target` within `tol`, first one on ties. */
  function ClosestIndex(points: seq<Observation>, target: int, tol: int): (r: Option<nat>)
    ensures r.None? <==> forall j :: 0 <= j < |points| ==> Distance(points[j], target) > tol
    ensures r.Some? ==> r.value < |points| && Distance(points[r.value], target) <= tol
    ensures r.Some? ==> forall j :: 0 <= j < |points| ==> Distance(points[r.value], target) <= Distance(points[j], target)
    ensures r.Some? ==> forall j :: 0 <= j < r.value ==> Distance(points[r.value], target) < Distance(points[j], target)
  {
    ScanClosest(points, target, tol, 0, None)
  }

  /** `findClosest(target, tol)` over `points`: the nearest point within the tolerance, if any. */
  function FindClosest(points: seq<Observation>, target: int, tol: int): (r: Option<Observation>)
    ensures r.None? <==> forall p :: p in points ==> Distance(p, target) > tol
    ensures r.Some? ==> r.value in points && Distance(r.value, target) <= tol
    ensures r.Some? ==> forall p :: p in points ==> Distance(r.value, target) <= Distance(p, target)
  {
    var k := ClosestIndex(points, target, tol);
    if k.None? then None else Some(points[k.value])
  }

  /** The specification of `ClosestAmong` pins down a single index. */
  lemma ClosestIsUnique(points: seq<Observation>, target: int, tol: int, b1: nat, b2: nat)
    requires ClosestAmong(points, target, tol, |points|, Some(b1))
    requires ClosestAmong(points, target, tol, |points|, Some(b2))
    ensures b1 == b2
  {
  }

  /** `calcChange(previous, current)`: percent change, none when a side is missing or the previous price is 0. */
  function CalcChange(previous: Option<Observation>, current: Option<Observation>): (r: Option<real>)
    ensures r.None? <==> previous.None? || current.None? || previous.value.floorPrice == 0.0
    ensures r.Some? ==> r.value * previous.value.floorPrice == (current.value.floorPrice - previous.value.floorPrice) * 100.0
  {
    if previous.None? || current.None? || previous.value.floorPrice == 0.0 then None
    else Some((current.value.floorPrice - previous.value.floorPrice) / previous.value.floorPrice * 100.0)
  }

  /** Applying the computed percentage to the previous price gives back the current price. */
  lemma ChangeRoundTrip(previous: Observation, current: Observation)
    requires previous.floorPrice != 0.0
    ensures var r := CalcChange(Some(previous), Some(current));
            r.Some? && previous.floorPrice + previous.floorPrice * r.value / 100.0 == current.floorPrice
  {
    var r := CalcChange(Some(previous), Some(current)).value;
    assert r * previous.floorPrice == (current.floorPrice - previous.floorPrice) * 100.0;
    calc {
      previous.floorPrice * r / 100.0;
      (r * previous.floorPrice) / 100.0;
      current.floorPrice - previous.floorPrice;
    }
  }

  /** A price going from 1 to 1.5 is a 50 percent rise. */
  lemma FiftyPercentRise(previous: Observation, current: Observation)
    requires previous.floorPrice == 1.0 && current.floorPrice == 1.5
    ensures CalcChange(Some(previous), Some(current)) == Some(50.0)
  {
  }

  /** A named lookback window: how far back to look and how far from that instant a point may lie. */
  datatype Window = Window(name: string, durationMs: int, toleranceMs: int)

  /** The deployed windows: an hour, a day, a week, 30 days and 77 days (labelled "quarter"). */
  const DeployedWindows: seq<Window> := [
    Window("hour", 3600000, HourMs * 2),
    Window("day", 86400000, HourMs * 12),
    Window("week", 604800000, HourMs * 24),
    Window("month", 2592000000, HourMs * 48),
    Window("quarter", 6652800000, HourMs * 72)
  ]

  /** One entry of the response's `changes` object. */
  datatype WindowChange = WindowChange(name: string, change: Option<real>)

  /** Every configured window reported as unavailable. */
  function NoChanges(windows: seq<Window>): (r: seq<WindowChange>)
    ensures |r| == |windows|
    ensures forall i :: 0 <= i < |r| ==> r[i].name == windows[i].name && r[i].change.None?
  {
    seq(|windows|, i requires 0 <= i < |windows| => WindowChange(windows[i].name, None))
  }

  /** The change of `current` against the point nearest to `now - duration` for one window. */
  function ChangeFor(filtered: seq<Observation>, current: Observation, now: int, w: Window): Option<real> {
    CalcChange(FindClosest(filtered, now - w.durationMs, w.toleranceMs), Some(current))
  }

  /** The `changes` object: one entry per configured window, in configuration order. */
  function WindowChanges(filtered: seq<Observation>, current: Observation, now: int, windows: seq<Window>): (r: seq<WindowChange>)
    ensures |r| == |windows|
    ensures forall i :: 0 <= i < |r| ==> r[i].name == windows[i].name
    ensures forall i :: 0 <= i < |r| && r[i].change.Some? ==>
              var p := FindClosest(filtered, now - windows[i].durationMs, windows[i].toleranceMs);
              && p.Some? && p.value.floorPrice != 0.0
              && r[i].change.value * p.value.floorPrice == (current.floorPrice - p.value.floorPrice) * 100.0
  {
    seq(|windows|, i requires 0 <= i < |windows| => WindowChange(windows[i].name, ChangeFor(filtered, current, now, windows[i])))
  }

  /**
   A window's change is unavailable exactly when no filtered point lies within its tolerance of
   `now - duration`, or the nearest such point has price 0.
   */
  lemma ChangeUnavailableIff(filtered: seq<Observation>, current: Observation, now: int, windows: seq<Window>, i: nat)
    requires i < |windows|
    ensures var w := windows[i];
            var target := now - w.durationMs;
            WindowChanges(filtered, current, now, windows)[i].change.None? <==>
              (forall p :: p in filtered ==> Distance(p, target) > w.toleranceMs) ||
              FindClosest(filtered, target, w.toleranceMs).value.floorPrice == 0.0
  {
  }

  /** A deployed window's tolerance is at least as long as two hours and grows with its duration. */
  lemma DeployedTolerancesGrow()
    ensures forall i, j :: 0 <= i < j < |DeployedWindows| ==>
              DeployedWindows[i].durationMs < DeployedWindows[j].durationMs &&
              DeployedWindows[i].toleranceMs < DeployedWindows[j].toleranceMs
    ensures forall i :: 0 <= i < |DeployedWindows| ==> DeployedWindows[i].toleranceMs >= 2 * HourMs
  {
  }
}

=== FILE: history.dfy ===
/**
 `GET /api/history`: read every stored record, drop the unreadable ones, sort by time, filter
 outliers, and report the series, the latest point, per-window percent changes and diagnostics.
 */
module History {
  import opened Wrappers
  import opened Observations
  import opened Outliers
  import opened Changes

  /** One member of the stored sorted set: an observation, or text that does not decode to one. */
  datatype StoredItem = Decoded(obs: Observation) | Undecodable

  /** What the range read of the store gives back. */
  datatype StoreRead =
    | StoreFault(message: string)      // the read throws, with this message
    | StoreNull                        // the read yields no list at all
    | Items(items: seq<StoredItem>)    // every stored member, in store order

  /** Why a response carries no series. */
  datatype Message = KvNotConfigured | NoDataYet | NoValidData

  /** The `debug` block; `oldest` and `newest` are absent when the timestamp is falsy (0). */
  datatype Diagnostics = Diagnostics(oldest: Option<int>, newest: Option<int>, totalPoints: nat, filteredPoints: nat, removedOutliers: int)

  datatype HistoryResponse =
    | Empty(message: Message, changes: seq<WindowChange>)
    | Failure(error: string, changes: seq<WindowChange>)
    | Report(history: seq<Observation>, changes: seq<WindowChange>, current: Observation, dataPoints: nat, debug: Diagnostics)
  {
    /** The `history` field: empty on every non-report response. */
    function Series(): seq<Observation> {
      if Report? then history else []
    }

    /** HTTP status: 500 when the handler threw, 200 otherwise. */
    function Status(): int {
      if Failure? then 500 else 200
    }
  }

  /** The decodable stored records, in store order. */
  function Decodable(items: seq<StoredItem>): (r: seq<Observation>)
    ensures |r| <= |items|
  {
    if |items| == 0 then []
    else (if items[0].Decoded? then [items[0].obs] else []) + Decodable(items[1..])
  }

  /** Decoding drops exactly the undecodable records and keeps every copy of the others. */
  lemma {:induction false} DecodableMembers(items: seq<StoredItem>)
    ensures forall o :: o in Decodable(items) <==> Decoded(o) in items
    ensures forall o :: multiset(Decodable(items))[o] == multiset(items)[Decoded(o)]
    decreases |items|
  {
    if |items| > 0 {
      DecodableMembers(items[1..]);
      assert items == [items[0]] + items[1..];
      assert multiset(items) == multiset{items[0]} + multiset(items[1..]);
    }
  }

  /** Decoding works record by record, so it keeps store order: decoding a concatenation concatenates. */
  lemma {:induction false} DecodableAppend(a: seq<StoredItem>, b: seq<StoredItem>)
    ensures Decodable(a + b) == Decodable(a) + Decodable(b)
    decreases |a|
  {
    if |a| > 0 {
      DecodableAppend(a[1..], b);
      assert (a + b)[0] == a[0];
      assert (a + b)[1..] == a[1..] + b;
      var head := if a[0].Decoded? then [a[0].obs] else [];
      assert Decodable(a) == head + Decodable(a[1..]);
      assert Decodable(a + b) == head + (Decodable(a[1..]) + Decodable(b));
    } else {
      assert a + b == b;
    }
  }

  /** `t ? t : null` on a timestamp. */
  function TruthyTimestamp(t: int): (r: Option<int>)
    ensures r.Some? <==> t != 0
    ensures r.Some? ==> r.value == t
  {
    if t != 0 then Some(t) else None
  }

  /** The largest distance from the epoch, in ms, that a JavaScript `Date` can represent. */
  const MaxDateMs: int := 8640000000000000

  /** The message of the `RangeError` that `toISOString` throws on an unrepresentable date. */
  const InvalidTime: string := "Invalid time value"

  /** `new Date(t).toISOString()` succeeds: `t` lies within the range of a `Date`. */
  predicate FormattableDate(t: int) {
    -MaxDateMs <= t <= MaxDateMs
  }

  /**
   The diagnostics can be formatted: the newest parsed record's timestamp and, when the series is
   not empty, its first timestamp are representable dates. Vacuous when nothing decodes.
   */
  predicate DatesInRange(items: seq<StoredItem>) {
    var parsed := SortByTime(Decodable(items));
    var filtered := FilterOutliers(parsed);
    |parsed| == 0 ||
    (FormattableDate(parsed[|parsed| - 1].timestamp) && (|filtered| > 0 ==> FormattableDate(filtered[0].timestamp)))
  }

  /** The full handler, with the clock reading `now` and the configured lookback windows as inputs. */
  function GetHistory(kvConfigured: bool, store: StoreRead, now: int, windows: seq<Window>): (r: HistoryResponse)
    ensures r.Report? <==> kvConfigured && store.Items? && (exists o :: Decoded(o) in store.items) && DatesInRange(store.items)
    ensures r.Failure? <==>
              kvConfigured &&
              (store.StoreFault? || (store.Items? && (exists o :: Decoded(o) in store.items) && !DatesInRange(store.items)))
    ensures r.Status() == 500 <==> r.Failure?
    ensures r.Failure? ==> r.error == if store.StoreFault? then store.message else InvalidTime
    ensures !r.Report? ==> r.Series() == [] && r.changes == NoChanges(windows)
    ensures |r.changes| == |windows|
    ensures r.Report? ==>
              && r.dataPoints == r.debug.filteredPoints == |r.history|
              && r.debug.totalPoints == |Decodable(store.items)|
              && r.debug.removedOutliers == r.debug.totalPoints - r.debug.filteredPoints
              && r.debug.removedOutliers >= 0
              && r.debug.newest == TruthyTimestamp(r.current.timestamp)
              && r.debug.oldest == (if |r.history| > 0 then TruthyTimestamp(r.history[0].timestamp) else None)
    ensures r.Report? ==>
              var parsed := SortByTime(Decodable(store.items));
              && |parsed| > 0
              && r.current == parsed[|parsed| - 1]
              && r.history == FilterOutliers(parsed)
              && r.changes == WindowChanges(r.history, r.current, now, windows)
  {
    if !kvConfigured then Empty(KvNotConfigured, NoChanges(windows))
    else match store
      case StoreFault(message) => Failure(message, NoChanges(windows))
      case StoreNull => Empty(NoDataYet, NoChanges(windows))
      case Items(items) =>
        if |items| == 0 then Empty(NoDataYet, NoChanges(windows))
        else
          var parsed := SortByTime(Decodable(items));  // the decodable records, stably sorted by time
          DecodableMembers(items);
          if |parsed| == 0 then
            Empty(NoValidData, NoChanges(windows))
          else
            assert Decoded(Decodable(items)[0]) in items;
            if !DatesInRange(items) then Failure(InvalidTime, NoChanges(windows))
            else Summarize(parsed, now, windows)
  }

  /** The report built from the non-empty parsed list. */
  function Summarize(parsed: seq<Observation>, now: int, windows: seq<Window>): (r: HistoryResponse)
    requires |parsed| > 0
    ensures r.Report?
    ensures r.current == parsed[|parsed| - 1] && r.history == FilterOutliers(parsed)
    ensures r.changes == WindowChanges(r.history, r.current, now, windows) && |r.changes| == |windows|
    ensures r.dataPoints == r.debug.filteredPoints == |r.history| && r.debug.totalPoints == |parsed|
    ensures r.debug.removedOutliers == r.debug.totalPoints - r.debug.filteredPoints >= 0
    ensures r.debug.newest == TruthyTimestamp(r.current.timestamp)
    ensures r.debug.oldest == (if |r.history| > 0 then TruthyTimestamp(r.history[0].timestamp) else None)
  {
    var filtered := FilterOutliers(parsed);
    var current := parsed[|parsed| - 1];
    var oldest := if |filtered| > 0 then TruthyTimestamp(filtered[0].timestamp) else None;
    Report(
      filtered,
      WindowChanges(filtered, current, now, windows),
      current,
      |filtered|,
      Diagnostics(oldest, TruthyTimestamp(current.timestamp), |parsed|, |filtered|, |parsed| - |filtered|))
  }

  lemma {:induction false} SubsequenceMembers<T>(a: seq<T>, b: seq<T>)
    requires Subsequence(a, b)
    ensures forall x :: x in a ==> x in b
    decreases |b|
  {
    if |a| > 0 {
      if a[0] == b[0] && Subsequence(a[1..], b[1..]) {
        SubsequenceMembers(a[1..], b[1..]);
        assert a == [a[0]] + a[1..];
      } else {
        SubsequenceMembers(a, b[1..]);
      }
    }
  }

  lemma {:induction false} SubsequenceTimeOrdered(a: seq<Observation>, b: seq<Observation>)
    requires Subsequence(a, b) && TimeOrdered(b)
    ensures TimeOrdered(a)
    decreases |b|
  {
    if |a| > 0 {
      if a[0] == b[0] && Subsequence(a[1..], b[1..]) {
        SubsequenceTimeOrdered(a[1..], b[1..]);
        SubsequenceMembers(a[1..], b[1..]);
        forall j | 1 <= j < |a| ensures a[0].timestamp <= a[j].timestamp {
          assert a[j] == a[1..][j - 1];
          assert a[j] in b[1..];
        }
      } else {
        SubsequenceTimeOrdered(a, b[1..]);
      }
    }
  }

  /** The reported series is ascending by time and holds only decodable stored records. */
  lemma SeriesIsOrderedStoredData(kvConfigured: bool, store: StoreRead, now: int, windows: seq<Window>)
    ensures var r := GetHistory(kvConfigured, store, now, windows);
            && TimeOrdered(r.Series())
            && forall o :: o in r.Series() ==> store.Items? && Decoded(o) in store.items
  {
    var r := GetHistory(kvConfigured, store, now, windows);
    if r.Report? {
      var parsed := SortByTime(Decodable(store.items));
      FilterOutliersSpec(parsed);
      SubsequenceTimeOrdered(r.history, parsed);
      SubsequenceMembers(r.history, parsed);
      DecodableMembers(store.items);
      SortByTimePermutes(Decodable(store.items));
      forall o | o in r.history ensures Decoded(o) in store.items {
        assert o in multiset(parsed);
      }
    }
  }

  /**
   The last element of the parsed list is the latest decodable record: no decodable record is
   later, and among records with its timestamp it is the last one in store order.
   */
  lemma LastParsedIsLatest(items: seq<StoredItem>)
    requires |SortByTime(Decodable(items))| > 0
    ensures var parsed := SortByTime(Decodable(items));
            var last := parsed[|parsed| - 1];
            var same := AtTime(Decodable(items), last.timestamp);
            && Decoded(last) in items
            && (forall o :: Decoded(o) in items ==> o.timestamp <= last.timestamp)
            && |same| > 0 && same[|same| - 1] == last
  {
    SortedLastIsLatest(Decodable(items));
    DecodableMembers(items);
  }

  /**
   `current` is the latest decodable record: no decodable record is later, and among records with
   its timestamp it is the last one in store order. It is taken from the unfiltered list.
   */
  lemma CurrentIsLatestStored(kvConfigured: bool, store: StoreRead, now: int, windows: seq<Window>)
    requires GetHistory(kvConfigured, store, now, windows).Report?
    ensures var r := GetHistory(kvConfigured, store, now, windows);
            var same := AtTime(Decodable(store.items), r.current.timestamp);
            && Decoded(r.current) in store.items
            && (forall o :: Decoded(o) in store.items ==> o.timestamp <= r.current.timestamp)
            && |same| > 0 && same[|same| - 1] == r.current
  {
    var parsed := SortByTime(Decodable(store.items));
    var current := GetHistory(kvConfigured, store, now, windows).current;
    assert current == parsed[|parsed| - 1];
    LastParsedIsLatest(store.items);
  }

  function StoredSpikeSeries(a: real, b: real): seq<StoredItem> {
    seq(5, i => Decoded(SpikePoint(a, b, i)))
  }

  lemma ParseSpikeSeries(a: real, b: real)
    ensures SortByTime(Decodable(StoredSpikeSeries(a, b))) == SpikeSeries(a, b)
  {
    var items := StoredSpikeSeries(a, b);
    var pts := SpikeSeries(a, b);
    assert Decodable(items[5..]) == [];
    assert Decodable(items[4..]) == pts[4..];
    assert Decodable(items[3..]) == pts[3..];
    assert Decodable(items[2..]) == pts[2..];
    assert Decodable(items[1..]) == pts[1..];
    assert Decodable(items) == pts;
    SortByTimeOfOrdered(pts);
  }

  /**
   The newest stored point can be missing from the series yet still be reported as `current`:
   four points priced `a` and a newest one priced above `3 a` (for example 1, 1, 1, 1, 100).
   */
  lemma CurrentMayBeFilteredOut(a: real, b: real, now: int)
    requires 0.0 < a && 3.0 * a < b
    ensures var r := GetHistory(true, Items(StoredSpikeSeries(a, b)), now, DeployedWindows);
            && r.Report?
            && r.current == SpikeSeries(a, b)[4]
            && SpikeSeries(a, b)[4] !in r.history
            && SpikeSeries(a, b)[0] in r.history
  {
    ParseSpikeSeries(a, b);
    SpikeIsDropped(a, b);
    assert Decoded(SpikeSeries(a, b)[0]) in StoredSpikeSeries(a, b);
    assert forall o :: Decoded(o) in StoredSpikeSeries(a, b) ==> 1 <= o.timestamp <= 5;
    AllDatesInRange(StoredSpikeSeries(a, b));
  }

  /** When every decodable stored record carries a representable date, the diagnostics can be formatted. */
  lemma AllDatesInRange(items: seq<StoredItem>)
    requires forall o :: Decoded(o) in items ==> FormattableDate(o.timestamp)
    ensures DatesInRange(items)
  {
    var decoded := Decodable(items);
    var parsed := SortByTime(decoded);
    var filtered := FilterOutliers(parsed);
    forall o | o in decoded ensures FormattableDate(o.timestamp) {
      DecodableMembers(items);
    }
    assert multiset(parsed) == multiset(decoded) by {
      SortByTimePermutes(decoded);
    }
    assert forall x :: x in filtered ==> x in parsed by {
      FilterOutliersSpec(parsed);
      SubsequenceMembers(filtered, parsed);
    }
    RearrangedDates(decoded, parsed, filtered);
  }

  lemma RearrangedDates(decoded: seq<Observation>, parsed: seq<Observation>, filtered: seq<Observation>)
    requires forall o :: o in decoded ==> FormattableDate(o.timestamp)
    requires multiset(parsed) == multiset(decoded)
    requires forall x :: x in filtered ==> x in parsed
    ensures |parsed| > 0 ==> FormattableDate(parsed[|parsed| - 1].timestamp)
    ensures |filtered| > 0 ==> FormattableDate(filtered[0].timestamp)
  {
    if |parsed| > 0 {
      assert parsed[|parsed| - 1] in multiset(decoded);
    }
    if |filtered| > 0 {
      assert filtered[0] in filtered;
      assert filtered[0] in multiset(parsed);
    }
  }


}

=== FILE: observations.dfy ===
/**
 The stored record shared by ingestion, backfill and history, and the stable sort by timestamp
 the history endpoint applies to it (`Array.prototype.sort` is stable since ES2019).
 */
module Observations {

  /** One floor-price sample: price in ETH, derived market cap, supply, and a millisecond timestamp. */
  datatype Observation = Observation(floorPrice: real, marketCap: real, totalSupply: int, timestamp: int)

  /** Milliseconds in an hour; timestamps are milliseconds since the epoch. */
  const HourMs: int := 3600000

  /** Ascending by timestamp, duplicates allowed. */
  ghost predicate TimeOrdered(s: seq<Observation>) {
    forall i, j :: 0 <= i < j < |s| ==> s[i].timestamp <= s[j].timestamp
  }

  /** The observations of `s` stamped `t`, in their order in `s`. */
  function AtTime(s: seq<Observation>, t: int): seq<Observation> {
    if |s| == 0 then []
    else (if s[0].timestamp == t then [s[0]] else []) + AtTime(s[1..], t)
  }

  /** Inserts `x` in front of the first observation stamped no earlier than `x`. */
  function InsertByTime(x: Observation, s: seq<Observation>): (r: seq<Observation>)
    requires TimeOrdered(s)
    ensures TimeOrdered(r)
    ensures |r| == |s| + 1
    ensures r[0] == x || (|s| > 0 && r[0] == s[0])
    decreases |s|
  {
    if |s| == 0 || x.timestamp <= s[0].timestamp then [x] + s
    else
      var rest := InsertByTime(x, s[1..]);
      assert s == [s[0]] + s[1..];
      TimeOrderedCons(s[0], rest);
      [s[0]] + rest
  }

  lemma TimeOrderedCons(y: Observation, t: seq<Observation>)
    requires TimeOrdered(t) && (|t| > 0 ==> y.timestamp <= t[0].timestamp)
    ensures TimeOrdered([y] + t)
  {
    forall i, j | 0 <= i < j < |[y] + t| ensures ([y] + t)[i].timestamp <= ([y] + t)[j].timestamp {
      assert ([y] + t)[j] == t[j - 1];
      if i > 0 {
        assert ([y] + t)[i] == t[i - 1];
      }
    }
  }

  /**
   `sort((a, b) => a.timestamp - b.timestamp)` as an insertion sort. Each observation goes into the
   sorted rest ahead of those with an equal timestamp, so equal timestamps keep their input order.
   */
  function SortByTime(s: seq<Observation>): (r: seq<Observation>)
    ensures TimeOrdered(r)
    ensures |r| == |s|
    decreases |s|
  {
    if |s| == 0 then []
    else InsertByTime(s[0], SortByTime(s[1..]))
  }

  /** Inserting adds `x` and loses nothing. */
  lemma {:induction false} InsertByTimePermutes(x: Observation, s: seq<Observation>)
    requires TimeOrdered(s)
    ensures multiset(InsertByTime(x, s)) == multiset(s) + multiset{x}
    decreases |s|
  {
    if |s| > 0 && x.timestamp > s[0].timestamp {
      InsertByTimePermutes(x, s[1..]);
      assert s == [s[0]] + s[1..];
    }
  }

  /** Sorting rearranges: the result holds the same observations, each as often. */
  lemma {:induction false} SortByTimePermutes(s: seq<Observation>)
    ensures multiset(SortByTime(s)) == multiset(s)
    decreases |s|
  {
    if |s| > 0 {
      SortByTimePermutes(s[1..]);
      InsertByTimePermutes(s[0], SortByTime(s[1..]));
      assert s == [s[0]] + s[1..];
    }
  }

  lemma AtTimeCons(y: Observation, s: seq<Observation>, t: int)
    ensures AtTime([y] + s, t) == (if y.timestamp == t then [y] else []) + AtTime(s, t)
  {
    assert ([y] + s)[1..] == s;
  }

  /** The last observation of a sequence is the last one stamped with its own timestamp. */
  lemma {:induction false} AtTimeEndsWithLast(s: seq<Observation>)
    requires |s| > 0
    ensures var same := AtTime(s, s[|s| - 1].timestamp);
            |same| > 0 && same[|same| - 1] == s[|s| - 1]
    decreases |s|
  {
    var t := s[|s| - 1].timestamp;
    if |s| == 1 {
      assert AtTime(s[1..], t) == [];
    } else {
      AtTimeEndsWithLast(s[1..]);
      assert s[1..][|s| - 2] == s[|s| - 1];
    }
  }

  /** No observation of a sequence stamped entirely after `t` is stamped `t`. */
  lemma {:induction false} AtTimeLater(s: seq<Observation>, t: int)
    requires forall i :: 0 <= i < |s| ==> t < s[i].timestamp
    ensures AtTime(s, t) == []
    decreases |s|
  {
    if |s| > 0 {
      AtTimeLater(s[1..], t);
    }
  }

  lemma {:induction false} InsertAtTime(x: Observation, s: seq<Observation>, t: int)
    requires TimeOrdered(s)
    ensures AtTime(InsertByTime(x, s), t) == (if x.timestamp == t then [x] else []) + AtTime(s, t)
    decreases |s|
  {
    if |s| == 0 || x.timestamp <= s[0].timestamp {
      AtTimeCons(x, s, t);
    } else {
      var rest := InsertByTime(x, s[1..]);
      InsertAtTime(x, s[1..], t);
      AtTimeCons(s[0], rest, t);
      assert s == [s[0]] + s[1..];
      AtTimeCons(s[0], s[1..], t);
    }
  }

  /** Stability: for every timestamp, the observations stamped with it keep their input order. */
  lemma {:induction false} SortByTimeIsStable(s: seq<Observation>, t: int)
    ensures AtTime(SortByTime(s), t) == AtTime(s, t)
    decreases |s|
  {
    if |s| > 0 {
      SortByTimeIsStable(s[1..], t);
      InsertAtTime(s[0], SortByTime(s[1..]), t);
      assert s == [s[0]] + s[1..];
      AtTimeCons(s[0], s[1..], t);
    }
  }

  /** The last element after sorting is the last one, in input order, with the greatest timestamp. */
  lemma SortedLastEndsItsGroup(s: seq<Observation>)
    requires |s| > 0
    ensures var sorted := SortByTime(s);
            var same := AtTime(s, sorted[|sorted| - 1].timestamp);
            |same| > 0 && same[|same| - 1] == sorted[|sorted| - 1]
  {
    var sorted := SortByTime(s);
    SortByTimeIsStable(s, sorted[|sorted| - 1].timestamp);
    AtTimeEndsWithLast(sorted);
  }

  /** The last element of an ordered rearrangement of `s` is an element of `s` with the greatest timestamp. */
  lemma OrderedLastIsMaximal(s: seq<Observation>, sorted: seq<Observation>)
    requires |sorted| > 0 && TimeOrdered(sorted) && multiset(sorted) == multiset(s)
    ensures sorted[|sorted| - 1] in s
    ensures forall o :: o in s ==> o.timestamp <= sorted[|sorted| - 1].timestamp
  {
    var last := sorted[|sorted| - 1];
    assert last in multiset(s);
    forall o | o in s ensures o.timestamp <= last.timestamp {
      assert o in multiset(sorted);
      var i :| 0 <= i < |sorted| && sorted[i] == o;
      TimeOrderedLast(sorted, i);
    }
  }

  lemma TimeOrderedLast(s: seq<Observation>, i: int)
    requires TimeOrdered(s) && 0 <= i < |s|
    ensures s[i].timestamp <= s[|s| - 1].timestamp
  {
    if i < |s| - 1 {
      assert s[i].timestamp <= s[|s| - 1].timestamp;
    }
  }

  /**
   The last element after sorting is the latest observation: none is later, and among those with
   its timestamp it comes last in input order.
   */
  lemma SortedLastIsLatest(s: seq<Observation>)
    requires |s| > 0
    ensures var sorted := SortByTime(s);
            var last := sorted[|sorted| - 1];
            var same := AtTime(s, last.timestamp);
            && last in s
            && (forall o :: o in s ==> o.timestamp <= last.timestamp)
            && |same| > 0 && same[|same| - 1] == last
  {
    SortByTimePermutes(s);
    OrderedLastIsMaximal(s, SortByTime(s));
    SortedLastEndsItsGroup(s);
  }

  /** Sorting an already time-ordered sequence changes nothing. */
  lemma {:induction false} SortByTimeOfOrdered(s: seq<Observation>)
    requires TimeOrdered(s)
    ensures SortByTime(s) == s
    decreases |s|
  {
    if |s| > 0 {
      assert TimeOrdered(s[1..]);
      SortByTimeOfOrdered(s[1..]);
      assert s == [s[0]] + s[1..];
    }
  }
}

=== FILE: outliers.dfy ===
/**
 The history endpoint's outlier filter: points whose floor price is an implausible spike
 are dropped before the series is shown or used for percent changes.
 */
module Outliers {
  import opened Observations

  /** Below this many points the series is returned untouched. */
  const MinPoints: nat := 5
  /** Multiplier applied to the median. */
  const MedianFactor: real := 3.0
  /** Multiplier applied to the 90th percentile. */
  const PercentileFactor: real := 1.5

  /** `a` can be obtained from `b` by deleting elements: order kept, nothing introduced. */
  ghost predicate Subsequence<T>(a: seq<T>, b: seq<T>)
    decreases |b|
  {
    |a| == 0 || (|b| > 0 && ((a[0] == b[0] && Subsequence(a[1..], b[1..])) || Subsequence(a, b[1..])))
  }

  /** Ascending order on prices. */
  ghost predicate Ascending(s: seq<real>) {
    forall i, j :: 0 <= i < j < |s| ==> s[i] <= s[j]
  }

  /** The strictly positive floor prices of `data`, in input order. */
  function PositivePrices(data: seq<Observation>): (r: seq<real>)
    ensures forall i :: 0 <= i < |r| ==> r[i] > 0.0
    ensures |r| <= |data|
  {
    if |data| == 0 then []
    else (if data[0].floorPrice > 0.0 then [data[0].floorPrice] else []) + PositivePrices(data[1..])
  }

  /** There is no positive price exactly when every floor price is zero or negative. */
  lemma {:induction false} NoPositivePrices(data: seq<Observation>)
    ensures |PositivePrices(data)| == 0 <==> forall i :: 0 <= i < |data| ==> data[i].floorPrice <= 0.0
    decreases |data|
  {
    if |data| > 0 {
      NoPositivePrices(data[1..]);
      assert forall i :: 1 <= i < |data| ==> data[i] == data[1..][i - 1];
    }
  }

  /** When every floor price is positive, `PositivePrices` is just the list of floor prices. */
  lemma {:induction false} PositivePricesOfPositive(data: seq<Observation>)
    requires forall i :: 0 <= i < |data| ==> data[i].floorPrice > 0.0
    ensures PositivePrices(data) == seq(|data|, i requires 0 <= i < |data| => data[i].floorPrice)
    decreases |data|
  {
    if |data| > 0 {
      PositivePricesOfPositive(data[1..]);
    }
  }

  /** Inserts `x` in front of the first price that is at least `x`. */
  function InsertPrice(x: real, s: seq<real>): (r: seq<real>)
    requires Ascending(s)
    ensures Ascending(r)
    ensures multiset(r) == multiset(s) + multiset{x}
    ensures |r| == |s| + 1
    ensures r[0] == x || (|s| > 0 && r[0] == s[0])
    decreases |s|
  {
    if |s| == 0 || x <= s[0] then [x] + s
    else
      var rest := InsertPrice(x, s[1..]);
      assert s == [s[0]] + s[1..];
      AscendingCons(s[0], rest);
      [s[0]] + rest
  }

  lemma AscendingCons(y: real, t: seq<real>)
    requires Ascending(t) && (|t| > 0 ==> y <= t[0])
    ensures Ascending([y] + t)
  {
    forall i, j | 0 <= i < j < |[y] + t| ensures ([y] + t)[i] <= ([y] + t)[j] {
      assert ([y] + t)[j] == t[j - 1];
      if i > 0 {
        assert ([y] + t)[i] == t[i - 1];
      }
    }
  }

  /** `sort((a, b) => a - b)` on prices, as an insertion sort. */
  function SortPrices(s: seq<real>): (r: seq<real>)
    ensures Ascending(r)
    ensures multiset(r) == multiset(s)
    ensures |r| == |s|
    decreases |s|
  {
    if |s| == 0 then []
    else
      assert s == [s[0]] + s[1..];
      InsertPrice(s[0], SortPrices(s[1..]))
  }

  /** Sorting ascending prices changes nothing. */
  lemma {:induction false} SortPricesOfAscending(s: seq<real>)
    requires Ascending(s)
    ensures SortPrices(s) == s
    decreases |s|
  {
    if |s| > 0 {
      assert Ascending(s[1..]);
      SortPricesOfAscending(s[1..]);
      assert s == [s[0]] + s[1..];
    }
  }

  /** The positive prices, ascending. */
  function SortedPrices(data: seq<Observation>): (r: seq<real>)
    ensures Ascending(r)
    ensures multiset(r) == multiset(PositivePrices(data))
    ensures |r| == |PositivePrices(data)|
    ensures forall i :: 0 <= i < |r| ==> r[i] > 0.0
  {
    var r := SortPrices(PositivePrices(data));
    assert forall i :: 0 <= i < |r| ==> r[i] in multiset(PositivePrices(data));
    r
  }

  /** Middle element for an odd count, mean of the two middle elements for an even count. */
  function Median(s: seq<real>): (m: real)
    requires |s| >= 1
    ensures (forall i :: 0 <= i < |s| ==> s[i] > 0.0) ==> m > 0.0
  {
    var mid := |s| / 2;
    if |s| % 2 == 1 then s[mid] else (s[mid - 1] + s[mid]) / 2.0
  }

  /** `Math.floor(n * 0.90)`, always a valid index of a non-empty list. */
  function PercentileIndex(n: nat): (k: nat)
    requires n >= 1
    ensures k < n
    ensures 10 * k <= 9 * n < 10 * (k + 1)
  {
    (9 * n) / 10
  }

  /** The value at the 90th-percentile index. */
  function Percentile90(s: seq<real>): (p: real)
    requires |s| >= 1
    ensures p in s
  {
    s[PercentileIndex(|s|)]
  }

  /** `Math.min(median * 3, p90 * 1.5)`. */
  function Threshold(s: seq<real>): (t: real)
    requires |s| >= 1
    ensures t <= MedianFactor * Median(s) && t <= PercentileFactor * Percentile90(s)
    ensures t == MedianFactor * Median(s) || t == PercentileFactor * Percentile90(s)
    ensures (forall i :: 0 <= i < |s| ==> s[i] > 0.0) ==> t > 0.0
  {
    var a := MedianFactor * Median(s);
    var b := PercentileFactor * Percentile90(s);
    if a <= b then a else b
  }

  /** The points whose price is at most `t`, in input order. */
  function KeepAtMost(data: seq<Observation>, t: real): (r: seq<Observation>)
    ensures |r| <= |data|
  {
    if |data| == 0 then []
    else (if data[0].floorPrice <= t then [data[0]] else []) + KeepAtMost(data[1..], t)
  }

  /** `KeepAtMost` deletes exactly the points priced above `t`, keeps every copy of the rest and their order. */
  lemma {:induction false} KeepAtMostSpec(data: seq<Observation>, t: real)
    ensures Subsequence(KeepAtMost(data, t), data)
    ensures forall x :: x in KeepAtMost(data, t) <==> x in data && x.floorPrice <= t
    ensures forall x :: multiset(KeepAtMost(data, t))[x] == if x.floorPrice <= t then multiset(data)[x] else 0
    decreases |data|
  {
    if |data| > 0 {
      KeepAtMostSpec(data[1..], t);
      assert data == [data[0]] + data[1..];
      assert multiset(data) == multiset{data[0]} + multiset(data[1..]);
      var rest := KeepAtMost(data[1..], t);
      if data[0].floorPrice <= t {
        assert KeepAtMost(data, t) == [data[0]] + rest;
        assert ([data[0]] + rest)[1..] == rest;
      } else {
        assert KeepAtMost(data, t) == rest;
      }
    }
  }

  /**
   `filterOutliers`. With five or more points and no positive price the handler's threshold is NaN
   and every comparison fails, so the result is empty.
   */
  function FilterOutliers(data: seq<Observation>): (r: seq<Observation>)
    ensures |data| < MinPoints ==> r == data
    ensures |data| >= MinPoints && |PositivePrices(data)| == 0 ==> r == []
    ensures |r| <= |data|
  {
    if |data| < MinPoints then data
    else
      var prices := SortedPrices(data);
      if |prices| == 0 then [] else KeepAtMost(data, Threshold(prices))
  }

  /**
   The filter never reorders or invents points; with enough points and some positive price it
   keeps exactly the points priced at or below the threshold.
   */
  lemma FilterOutliersSpec(data: seq<Observation>)
    ensures Subsequence(FilterOutliers(data), data)
    ensures |data| >= MinPoints && |PositivePrices(data)| > 0 ==>
              forall x :: x in FilterOutliers(data) <==> x in data && x.floorPrice <= Threshold(SortedPrices(data))
  {
    if |data| < MinPoints {
      SubsequenceRefl(data);
    } else if |PositivePrices(data)| > 0 {
      KeepAtMostSpec(data, Threshold(SortedPrices(data)));
    }
  }

  /** With enough points and some positive price, the filter keeps every copy of each point at or below the threshold. */
  lemma FilterOutliersCounts(data: seq<Observation>)
    requires |data| >= MinPoints && |PositivePrices(data)| > 0
    ensures forall x :: multiset(FilterOutliers(data))[x] ==
              if x.floorPrice <= Threshold(SortedPrices(data)) then multiset(data)[x] else 0
  {
    KeepAtMostSpec(data, Threshold(SortedPrices(data)));
  }

  lemma {:induction false} SubsequenceRefl<T>(s: seq<T>)
    ensures Subsequence(s, s)
    decreases |s|
  {
    if |s| > 0 {
      SubsequenceRefl(s[1..]);
    }
  }

  /** The threshold of a non-empty list of positive prices is positive. */
  lemma ThresholdPositive(data: seq<Observation>)
    requires |PositivePrices(data)| > 0
    ensures Threshold(SortedPrices(data)) > 0.0
  {
  }

  /** Points with a non-positive price never exceed a positive threshold, so they are always kept. */
  lemma NonPositiveKept(data: seq<Observation>, x: Observation)
    requires x in data && x.floorPrice <= 0.0
    requires |data| < MinPoints || |PositivePrices(data)| > 0
    ensures x in FilterOutliers(data)
  {
    FilterOutliersSpec(data);
    if |data| >= MinPoints {
      ThresholdPositive(data);
    }
  }

  lemma {:induction false} KeepAtMostAll(data: seq<Observation>, t: real)
    requires forall i :: 0 <= i < |data| ==> data[i].floorPrice <= t
    ensures KeepAtMost(data, t) == data
    decreases |data|
  {
    if |data| > 0 {
      KeepAtMostAll(data[1..], t);
      assert data == [data[0]] + data[1..];
    }
  }

  /** When no price exceeds the threshold, the filter returns its input unchanged. */
  lemma NoSpikeKeepsAll(data: seq<Observation>)
    requires |PositivePrices(data)| > 0
    requires forall i :: 0 <= i < |data| ==> data[i].floorPrice <= Threshold(SortedPrices(data))
    ensures FilterOutliers(data) == data
  {
    if |data| >= MinPoints {
      KeepAtMostAll(data, Threshold(SortedPrices(data)));
    }
  }

  /** Which side of a pivot a count looks at. */
  datatype Side = Below | Above

  predicate Beyond(x: real, v: real, side: Side) {
    match side
    case Below => x < v
    case Above => x > v
  }

  /** How many elements of `s` lie strictly below (or above) `v`. */
  function CountBeyond(s: seq<real>, v: real, side: Side): (c: nat)
    ensures c <= |s|
  {
    if |s| == 0 then 0
    else (if Beyond(s[0], v, side) then 1 else 0) + CountBeyond(s[1..], v, side)
  }

  lemma CountCons(y: real, t: seq<real>, v: real, side: Side)
    ensures CountBeyond([y] + t, v, side) == (if Beyond(y, v, side) then 1 else 0) + CountBeyond(t, v, side)
  {
    assert ([y] + t)[1..] == t;
  }

  lemma {:induction false} CountInsert(x: real, s: seq<real>, v: real, side: Side)
    requires Ascending(s)
    ensures CountBeyond(InsertPrice(x, s), v, side) == (if Beyond(x, v, side) then 1 else 0) + CountBeyond(s, v, side)
    decreases |s|
  {
    if |s| == 0 || x <= s[0] {
      CountCons(x, s, v, side);
    } else {
      var rest := InsertPrice(x, s[1..]);
      CountInsert(x, s[1..], v, side);
      CountCons(s[0], rest, v, side);
      assert s == [s[0]] + s[1..];
      CountCons(s[0], s[1..], v, side);
    }
  }

  /** Sorting does not change how many elements lie on either side of a pivot. */
  lemma {:induction false} CountSorted(s: seq<real>, v: real, side: Side)
    ensures CountBeyond(SortPrices(s), v, side) == CountBeyond(s, v, side)
    decreases |s|
  {
    if |s| > 0 {
      CountSorted(s[1..], v, side);
      CountInsert(s[0], SortPrices(s[1..]), v, side);
      assert s == [s[0]] + s[1..];
      CountCons(s[0], s[1..], v, side);
    }
  }

  /** If every element from index `k` on is at least `v`, at most `k` elements lie below `v`. */
  lemma {:induction false} CountBelowBound(s: seq<real>, v: real, k: nat)
    requires k <= |s|
    requires forall j :: k <= j < |s| ==> s[j] >= v
    ensures CountBeyond(s, v, Below) <= k
    decreases |s|
  {
    if |s| > 0 {
      if k == 0 {
        CountBelowBound(s[1..], v, 0);
      } else {
        CountBelowBound(s[1..], v, k - 1);
      }
    }
  }

  /** If every element before index `k` is at most `v`, at most `|s| - k` elements lie above `v`. */
  lemma {:induction false} CountAboveBound(s: seq<real>, v: real, k: nat)
    requires k <= |s|
    requires forall j :: 0 <= j < k ==> s[j] <= v
    ensures CountBeyond(s, v, Above) <= |s| - k
    decreases |s|
  {
    if |s| > 0 && k > 0 {
      CountAboveBound(s[1..], v, k - 1);
    }
  }

  lemma MedianSplitsSorted(s: seq<real>)
    requires |s| >= 1 && Ascending(s)
    ensures CountBeyond(s, Median(s), Below) <= |s| / 2
    ensures CountBeyond(s, Median(s), Above) <= |s| / 2
  {
    var n := |s|;
    var m := Median(s);
    var q := n / 2;
    if n % 2 == 1 {
      assert forall j :: q <= j < n ==> s[q] <= s[j];
      assert forall j :: 0 <= j < q + 1 ==> s[j] <= s[q];
      CountBelowBound(s, m, q);
      CountAboveBound(s, m, q + 1);
    } else {
      assert s[q - 1] <= m <= s[q];
      assert forall j :: q <= j < n ==> s[q] <= s[j];
      assert forall j :: 0 <= j < q ==> s[j] <= s[q - 1];
      CountBelowBound(s, m, q);
      CountAboveBound(s, m, q);
    }
  }

  lemma PercentileRankSorted(s: seq<real>)
    requires |s| >= 1 && Ascending(s)
    ensures CountBeyond(s, Percentile90(s), Below) <= PercentileIndex(|s|)
    ensures CountBeyond(s, Percentile90(s), Above) <= |s| - 1 - PercentileIndex(|s|)
  {
    var k := PercentileIndex(|s|);
    assert forall j :: k <= j < |s| ==> s[k] <= s[j];
    assert forall j :: 0 <= j < k + 1 ==> s[j] <= s[k];
    CountBelowBound(s, s[k], k);
    CountAboveBound(s, s[k], k + 1);
  }

  /** The median splits the positive prices: at most half lie strictly below it, at most half strictly above. */
  lemma MedianSplits(data: seq<Observation>)
    requires |PositivePrices(data)| >= 1
    ensures var n := |PositivePrices(data)|;
            var m := Median(SortedPrices(data));
            CountBeyond(PositivePrices(data), m, Below) <= n / 2 &&
            CountBeyond(PositivePrices(data), m, Above) <= n / 2
  {
    var ps := PositivePrices(data);
    var s := SortedPrices(data);
    assert s == SortPrices(ps);
    MedianSplitsSorted(s);
    CountSorted(ps, Median(s), Below);
    CountSorted(ps, Median(s), Above);
  }

  /**
   The 90th-percentile value has at most `floor(0.9 n)` positive prices strictly below it and at
   most `n - 1 - floor(0.9 n)` strictly above it.
   */
  lemma PercentileRank(data: seq<Observation>)
    requires |PositivePrices(data)| >= 1
    ensures var n := |PositivePrices(data)|;
            var p := Percentile90(SortedPrices(data));
            CountBeyond(PositivePrices(data), p, Below) <= PercentileIndex(n) &&
            CountBeyond(PositivePrices(data), p, Above) <= n - 1 - PercentileIndex(n)
  {
    var ps := PositivePrices(data);
    var s := SortedPrices(data);
    assert s == SortPrices(ps);
    PercentileRankSorted(s);
    CountSorted(ps, Percentile90(s), Below);
    CountSorted(ps, Percentile90(s), Above);
  }

  /** Point `i` of five points one millisecond apart: four priced `a`, then one priced `b`. */
  function SpikePoint(a: real, b: real, i: int): Observation {
    var price := if i < 4 then a else b;
    Observation(price, price, 1, i + 1)
  }

  function SpikeSeries(a: real, b: real): seq<Observation> {
    seq(5, i => SpikePoint(a, b, i))
  }

  function SpikePrices(a: real, b: real): seq<real> {
    seq(5, i => if i < 4 then a else b)
  }

  lemma SpikePositivePrices(a: real, b: real)
    requires 0.0 < a < b
    ensures PositivePrices(SpikeSeries(a, b)) == SpikePrices(a, b)
  {
    PositivePricesOfPositive(SpikeSeries(a, b));
  }

  lemma SpikeSortedPrices(a: real, b: real)
    requires 0.0 < a < b
    ensures SortedPrices(SpikeSeries(a, b)) == SpikePrices(a, b)
  {
    SpikePositivePrices(a, b);
    SortPricesOfAscending(SpikePrices(a, b));
  }

  lemma SpikeThreshold(a: real, b: real)
    requires 0.0 < a && 3.0 * a < b
    ensures |PositivePrices(SpikeSeries(a, b))| > 0
    ensures Threshold(SortedPrices(SpikeSeries(a, b))) == 3.0 * a
  {
    var prices := SpikePrices(a, b);
    SpikeSortedPrices(a, b);
    assert Median(prices) == a;
    assert Percentile90(prices) == b;
  }

  /**
   Four equal prices `a` followed by a spike above `3 a`: the threshold is `min(3 a, 1.5 b) = 3 a`,
   so the spike is dropped and the other four points are kept (for example 1, 1, 1, 1, 100).
   */
  lemma SpikeIsDropped(a: real, b: real)
    requires 0.0 < a && 3.0 * a < b
    ensures SpikeSeries(a, b)[4] !in FilterOutliers(SpikeSeries(a, b))
    ensures forall i :: 0 <= i < 4 ==> SpikeSeries(a, b)[i] in FilterOutliers(SpikeSeries(a, b))
  {
    SpikeThreshold(a, b);
    FilterOutliersSpec(SpikeSeries(a, b));
  }
}

=== FILE: rates.dfy ===
/**
 `GET /api/rates`: ETH exchange rates behind a 60-second in-memory cache. The module-level cache
 is state passed in and returned; the clock reading, the price fetch and the `fetchedAt` text are
 inputs of each request.
 */
module RateCache {
  import opened Wrappers

  /** How long a cached entry is served without fetching, in ms. */
  const CacheDurationMs: int := 60000

  /** The rates object: one ETH price per currency and when it was fetched. */
  datatype Rates = Rates(usd: real, gbp: real, eur: real, btc: real, fetchedAt: string)

  /** `cachedRates` (null until the first successful fetch) and `cacheTime`. */
  datatype Cache = Cache(rates: Option<Rates>, time: int)

  /** The cache when the server starts. */
  const Initial: Cache := Cache(None, 0)

  /** `data.ethereum` as returned by the price API, each currency possibly missing. */
  datatype Quote = Quote(usd: Option<real>, gbp: Option<real>, eur: Option<real>, btc: Option<real>)

  /** The outcome of the price request. */
  datatype Fetch =
    | FetchNotOk                          // a non-2xx status
    | FetchFault(message: string)         // the request or its JSON decoding throws
    | FetchOk(ethereum: Option<Quote>)    // the decoded body's `ethereum` member, if present

  datatype RatesResponse =
    | Hit(rates: Rates, cacheAge: int)          // `cached: true`
    | Fresh(rates: Rates)                       // `cached: false`
    | Stale(rates: Rates, error: string)        // `cached: true, stale: true`
    | Error(error: string)                      // status 500
  {
    function Status(): int {
      if Error? then 500 else 200
    }
  }

  /** The response together with the cache the next request sees. */
  datatype Step = Step(response: RatesResponse, cache: Cache)

  /** `x || 0` on one currency. */
  function RateOrZero(q: Option<real>): (r: real)
    ensures q.None? ==> r == 0.0
    ensures q.Some? ==> r == q.value
  {
    q.GetOr(0.0)
  }

  /** The rates built from a quote; every missing currency, or a missing quote, gives 0. */
  function ToRates(ethereum: Option<Quote>, fetchedAt: string): (r: Rates)
    ensures ethereum.None? ==> r == Rates(0.0, 0.0, 0.0, 0.0, fetchedAt)
    ensures ethereum.Some? ==>
              && r.usd == ethereum.value.usd.GetOr(0.0)
              && r.gbp == ethereum.value.gbp.GetOr(0.0)
              && r.eur == ethereum.value.eur.GetOr(0.0)
              && r.btc == ethereum.value.btc.GetOr(0.0)
              && r.fetchedAt == fetchedAt
  {
    match ethereum
    case None => Rates(0.0, 0.0, 0.0, 0.0, fetchedAt)
    case Some(q) => Rates(RateOrZero(q.usd), RateOrZero(q.gbp), RateOrZero(q.eur), RateOrZero(q.btc), fetchedAt)
  }

  /** The cache may be served without fetching: it holds rates stored less than a minute before `now`. */
  predicate CacheValid(cache: Cache, now: int): (valid: bool)
    ensures valid ==> cache.rates.Some?
    ensures cache.rates.Some? ==> (valid <==> now < cache.time + 60 * 1000)
  {
    cache.rates.Some? && now - cache.time < CacheDurationMs
  }

  /** `Math.round(ms / 1000)`: the nearest whole second, halves rounded up. */
  function RoundToSeconds(ms: int): (s: int)
    ensures 1000 * s - 500 <= ms < 1000 * s + 500
  {
    (ms + 500) / 1000
  }

  /** The message the failed request raises. */
  function FailureMessage(fetch: Fetch): (message: string)
    requires !fetch.FetchOk?
    ensures fetch.FetchNotOk? ==> message == "Failed to fetch rates"
    ensures fetch.FetchFault? ==> message == fetch.message
  {
    match fetch
    case FetchNotOk => "Failed to fetch rates"
    case FetchFault(msg) => msg
  }

  /** One request at time `now`; `fetch` and `fetchedAt` are used only when the cache is not fresh. */
  function Get(cache: Cache, now: int, fetch: Fetch, fetchedAt: string): (r: Step)
    ensures r.response.Hit? <==> CacheValid(cache, now)
    ensures r.response.Hit? ==>
              && r.response.rates == cache.rates.value
              && 1000 * r.response.cacheAge - 500 <= now - cache.time < 1000 * r.response.cacheAge + 500
    ensures r.response.Fresh? <==> !CacheValid(cache, now) && fetch.FetchOk?
    ensures r.response.Fresh? ==> r.response.rates == ToRates(fetch.ethereum, fetchedAt)
    ensures r.response.Fresh? ==> r.cache == Cache(Some(r.response.rates), now)
    ensures r.response.Stale? <==> !CacheValid(cache, now) && !fetch.FetchOk? && cache.rates.Some?
    ensures r.response.Stale? ==> r.response.rates == cache.rates.value
    ensures r.response.Stale? || r.response.Error? ==> r.response.error == FailureMessage(fetch)
    ensures r.response.Error? <==> !CacheValid(cache, now) && !fetch.FetchOk? && cache.rates.None?
    ensures !r.response.Fresh? ==> r.cache == cache
    ensures r.response.Status() == 500 <==> r.response.Error?
  {
    if CacheValid(cache, now) then
      Step(Hit(cache.rates.value, RoundToSeconds(now - cache.time)), cache)
    else match fetch
      case FetchOk(ethereum) =>
        var rates := ToRates(ethereum, fetchedAt);
        Step(Fresh(rates), Cache(Some(rates), now))
      case _ =>
        var message := FailureMessage(fetch);
        if cache.rates.Some? then Step(Stale(cache.rates.value, message), cache)
        else Step(Error(message), cache)
  }

  /** A request at a steady clock reading: its time, price fetch and `fetchedAt` text. */
  datatype Request = Request(now: int, fetch: Fetch, fetchedAt: string)

  /** Serves `requests` in order from `cache`; the responses and the cache left behind. */
  function Run(cache: Cache, requests: seq<Request>): (r: (seq<RatesResponse>, Cache))
    ensures |r.0| == |requests|
    ensures cache.rates.Some? ==> r.1.rates.Some?
    decreases |requests|
  {
    if |requests| == 0 then ([], cache)
    else
      var step := Get(cache, requests[0].now, requests[0].fetch, requests[0].fetchedAt);
      var rest := Run(step.cache, requests[1..]);
      ([step.response] + rest.0, rest.1)
  }

  /** A successful fetch is served from the cache, whatever the fetch would give, for the next 60 s. */
  lemma RefreshThenHit(cache: Cache, now: int, fetch: Fetch, fetchedAt: string, later: int, fetch': Fetch, fetchedAt': string)
    requires Get(cache, now, fetch, fetchedAt).response.Fresh?
    requires now <= later < now + CacheDurationMs
    ensures var first := Get(cache, now, fetch, fetchedAt);
            var second := Get(first.cache, later, fetch', fetchedAt');
            second.response == Hit(first.response.rates, RoundToSeconds(later - now)) && second.cache == first.cache
  {
  }

  /** A hit reports an age between 0 and 60 seconds when the clock has not gone back. */
  lemma HitAgeBounded(cache: Cache, now: int, fetch: Fetch, fetchedAt: string)
    requires CacheValid(cache, now) && cache.time <= now
    ensures 0 <= Get(cache, now, fetch, fetchedAt).response.cacheAge <= 60
  {
  }

  /** Once some fetch has succeeded, no later request answers with an error. */
  lemma {:induction false} OnceCachedNeverError(cache: Cache, requests: seq<Request>)
    requires cache.rates.Some?
    ensures forall i :: 0 <= i < |requests| ==> !Run(cache, requests).0[i].Error?
    decreases |requests|
  {
    if |requests| > 0 {
      var step := Get(cache, requests[0].now, requests[0].fetch, requests[0].fetchedAt);
      OnceCachedNeverError(step.cache, requests[1..]);
      var rest := Run(step.cache, requests[1..]);
      assert Run(cache, requests).0 == [step.response] + rest.0;
      forall i | 0 <= i < |requests| ensures !Run(cache, requests).0[i].Error? {
        if i > 0 {
          assert Run(cache, requests).0[i] == rest.0[i - 1];
        }
      }
    }
  }

  /** Before any fetch succeeds every request fetches, and each failure is an error with status 500. */
  lemma ColdCacheFailureIsError(now: int, fetch: Fetch, fetchedAt: string)
    requires !fetch.FetchOk?
    ensures Get(Initial, now, fetch, fetchedAt) == Step(Error(FailureMessage(fetch)), Initial)
  {
  }
}

=== FILE: wrappers.dfy ===
/** Optional values and JavaScript truthiness, shared by every handler model. */
module Wrappers {

  /** A value that may be absent: JavaScript's `null` / `undefined`. */
  datatype Option<+T> = None | Some(value: T) {

    /** The value when present, `default` when absent (the `x ?? d` idiom). */
    function GetOr(default: T): (r: T)
      ensures Some? ==> r == value
      ensures None? ==> r == default
    {
      match this
      case Some(v) => v
      case None => default
    }
  }

  /** JavaScript truthiness of an optional string: present and non-empty. */
  predicate Truthy(s: Option<string>) {
    s.Some? && s.value != ""
  }

  /** The `a || b` idiom on optional strings: `a` when truthy, otherwise `b`. */
  function OrElse(a: Option<string>, b: Option<string>): (r: Option<string>)
    ensures Truthy(r) <==> Truthy(a) || Truthy(b)
    ensures Truthy(a) ==> r == a
    ensures !Truthy(a) ==> r == b
  {
    if Truthy(a) then a else b
  }
}
